=== FILE: README.md ===
# User use-case of the producer service, in Dafny

The producer service exposes five HTTP handlers over a `User` record (`ID`, `Nama`,
`Email`). Each handler validates its input and then writes through four backing stores in a
fixed order: a PostgreSQL table via gorm, a MongoDB `users` collection, a Redis cache and a
RabbitMQ queue. There is no transaction and no compensation. This project models the handlers
and their two validators, and proves what they do to the stores.

- **Validators** (`validation.dfy`).
  - `ValidateEmail` is the anchored pattern `^[a-zA-Z0-9._%+-]+@[a-zA-Z0-9.-]+\.[a-zA-Z]{2,}$`,
    stated in three ways that are proved to agree:
    - `EmailSyntax.MatchesPattern`: the set of strings the expression denotes, as a choice of
      the `@` and the `\.`;
    - `EmailSyntax.WellFormed`: a split at the first `@` and at the domain's last `.`;
    - `EmailMatcher.Run`: a one-character-at-a-time automaton, which is what the validator
      executes.

    The domain class contains `.`, so `a@..co` is accepted. `a@.co` is rejected, because
    `[a-zA-Z0-9.-]+` needs a character before the escaped `.`.
  - `ValidateNameLength` bounds Go's `len`, which counts UTF-8 bytes. Names are Dafny strings,
    and the bound is stated on their UTF-8 encoding (`utf8.dfy`, section 3 of RFC 3629).
- **Path parameter** (`id_parse.dfy`). `strconv.ParseInt(s, 10, 64)` accepts an optional sign,
  one or more ASCII digits and a value inside the int64 range. `FormatInt64` is its round-trip
  partner.
- **Stores** (`backends.dfy`). All four stores form one immutable value:
  - the table is a map from primary key to row;
  - the collection is a sequence of documents in natural order, where `UpdateOne` and
    `DeleteOne` act on the first match;
  - the cache is a map from string to id;
  - the queues are a map from queue name to pending messages.

  Every driver call takes an injected `Call` that says whether it succeeded and, if not,
  with which error.
- **Handlers** (`user_usecase.dfy`). Each handler is a pure function from the stores, the
  decoded request and the outcomes of its driver calls to new stores and an `Outcome`. The
  `Outcome` is the HTTP status together with what the body carries.
- **Properties** (`user_properties.dfy`). This file holds what relates several calls:
  - reads after writes;
  - the invariant that the stores hold only validated users and addresses, kept by every
    handler whatever its driver calls report;
  - its consequence that `DeleteUser` never removes a cache entry. Delete clears the cache key
    spelled by the raw path parameter, which parses as a number and so has no `@`. Create
    wrote the entry under the email, which always has one.

Behaviour of the code that a reader might not expect, and that the model keeps:

- `ID` carries the JSON tag `id` (model/model.user.go:4), so a request body can set it.
  - Create binds the body into an empty user (usecase/user/uc.user.go:39). gorm then inserts
    under the body's `id` when it is non-zero (usecase/user/uc.user.go:57), and only otherwise
    under a key the table assigns (`UserUseCase.Inserted`, `UserProperties.CreateKeepsBodyId`).
  - Update binds the body over the loaded row (usecase/user/uc.user.go:162) and saves by the
    bound key (usecase/user/uc.user.go:180). A body with another `id` therefore saves the row
    under that key and leaves the loaded row in place
    (`UserProperties.UpdateWithNewIdKeepsOldRow`).
- `GetUser` and `UpdateUser` answer 404 for every error of `First`, a driver failure included
  (usecase/user/uc.user.go:142-144, 156-158).
- `DeleteUser` removes the cache key spelled by the raw parameter (usecase/user/uc.user.go:233),
  such as `"+7"` or `"007"`, not the number's canonical form.
- `DeleteUser` answers 404 only when the row delete reports an error
  (usecase/user/uc.user.go:217-219). Nothing is claimed about deleting the same id twice.

## Model

| member | source | states |
|---|---|---|
| Validation.ValidateEmail | usecase/user/uc.user.go:20-23 | the validator accepts exactly the strings the anchored pattern denotes, and exactly the split-form addresses |
| EmailSyntax.WellFormedIffPattern | usecase/user/uc.user.go:21 | one `@` with a non-empty local part, and a domain whose last `.` has a character before it and two or more letters after it, is the same language as the pattern |
| EmailSyntax.WellFormedHasOneAt | usecase/user/uc.user.go:21 | an accepted address has an `@`, and only one |
| EmailMatcher.RunIsExpected | usecase/user/uc.user.go:21-22 | after any input the automaton is in the state that the input's split form predicts |
| EmailMatcher.RunAcceptsWellFormed | usecase/user/uc.user.go:21-22 | the automaton accepts a string iff it is a well-formed address |
| Validation.ValidEmailHasAt | usecase/user/uc.user.go:21 | every address the validator accepts contains `@` |
| Validation.EmailAcceptedExamples | usecase/user/uc.user.go:21 | `a@b.co`, a mixed-case address with `+` and `-`, and `a@..co` are accepted |
| Validation.EmailRejectsShortFinalLabel | usecase/user/uc.user.go:21 | a one-letter final label is rejected (`{2,}`) |
| Validation.EmailRejectsEmptyDomainFront | usecase/user/uc.user.go:21 | `a@.co` is rejected: nothing stands between `@` and the last `.` |
| Validation.EmailRejectsDigitInFinalLabel | usecase/user/uc.user.go:21 | a digit in the final label is rejected |
| Validation.EmailRejectedShapes | usecase/user/uc.user.go:21 | an empty local part, a second `@`, a missing `@` and a trailing newline are rejected |
| Validation.ValidateNameLength | usecase/user/uc.user.go:25-32 | true iff the UTF-8 encoding of the name has between 5 and 10 bytes, both inclusive |
| Validation.NameLengthExamples | usecase/user/uc.user.go:26-31 | 5 and 10 bytes pass, 4 and 11 fail; two-byte letters count twice |
| Utf8.EncodeChar | usecase/user/uc.user.go:31 | a character encodes to 1 to 4 bytes, with a lead byte and continuation bytes, and decodes back to itself |
| Utf8.ByteLengthIsEncodedLength | usecase/user/uc.user.go:31 | the byte count summed per character equals the length of the encoding |
| Utf8.ByteLengthBounds | usecase/user/uc.user.go:31 | a string's byte length is between its character count and four times that |
| Utf8.AsciiByteLength | usecase/user/uc.user.go:31 | on ASCII text `len` equals the character count |
| IdParse.ParseInt64 | usecase/user/uc.user.go:210 | succeeds iff the text is an optional sign and one or more digits whose value lies in the int64 range, and then yields that signed value; an accepted text has no `@` |
| IdParse.FormatInt64 | usecase/user/uc.user.go:210 | the decimal spelling of any int64 parses back to it |
| IdParse.ParseExamples | usecase/user/uc.user.go:210 | signs and leading zeros are accepted; empty text, a bare sign, `_`, a space and an address are rejected |
| IdParse.ParseRejectsOverflow | usecase/user/uc.user.go:210 | one past either end of the int64 range is an error |
| Backends.FirstWithId | usecase/user/uc.user.go:196-197 | the document the `{"id": id}` filter selects is the first with that id, and there is none iff no document has it |
| Backends.SetFields | usecase/user/uc.user.go:189-197 | `UpdateOne` sets `nama` and `email` on the selected document and leaves every other document as it was |
| Backends.RemoveFirst | usecase/user/uc.user.go:225 | `DeleteOne` removes the selected document and keeps the others in order; no match changes nothing |
| UserUseCase.SendMessage | usecase/user/uc.user.go:90-121 | success iff channel, declare and publish all succeed; the first failing call's error is returned; a failed channel or declare leaves the queues as they were; a declared queue gains the message only on success; other queues are unchanged |
| UserUseCase.Bind | usecase/user/uc.user.go:162 | binding a body over a user: each field the body holds replaces the user's, each field it leaves out keeps the user's |
| UserUseCase.Inserted | usecase/user/uc.user.go:39-57 | the inserted row has the body's `nama` and `email`; its key is the body's `id` when that is present and non-zero, and the key the table assigns otherwise |
| UserUseCase.Lookup | usecase/user/uc.user.go:142 | `First(&user, id)` finds a row iff the call succeeds, the parameter parses and the table has that key; the row found is the one under that key |
| UserUseCase.CreateUser | usecase/user/uc.user.go:35-87 | a body that does not decode or validate gives 400 with the stores unchanged, the email error before the name error; otherwise exactly the writes before the first failing call take effect; 201 iff all five succeed, with the inserted row, its document, `cache[email] = id` and one `user_created` message |
| UserUseCase.EnumerateRows | usecase/user/uc.user.go:128 | the listed rows are the table's rows, each once |
| UserUseCase.GetUsers | usecase/user/uc.user.go:124-134 | a failing find gives 500; otherwise the list holds one entry per key of the table, through distinct keys that cover it, each entry the row stored under its key |
| UserUseCase.GetUser | usecase/user/uc.user.go:137-148 | 200 with the row iff the lookup succeeds and the parameter names a key in the table, and 404 otherwise |
| UserUseCase.UpdateUser | usecase/user/uc.user.go:151-204 | 404 iff the lookup fails, and the body is then not read; present fields overwrite the loaded row and absent ones keep it; 400 leaves the stores unchanged; the row is saved under the bound id, and a failing save gives 500 "Failed to update user" with its error; the first document with that id takes `nama` and `email`, and a failing `UpdateOne` gives 500 "Failed to update user in MongoDB" with its error; the cache and queues are never touched |
| UserUseCase.DeleteUser | usecase/user/uc.user.go:208-240 | 400 iff the id does not parse, with the stores unchanged; 404 iff the row delete fails; a failing document delete or cache delete gives 500 with that call's error; the row, then the first document with that id, then the cache key spelled by the raw parameter go; queues are never touched |
| UserProperties.CreatePreservesInvariant | usecase/user/uc.user.go:35-87 | a create, whatever its driver calls report, stores only validated users and addresses |
| UserProperties.UpdatePreservesInvariant | usecase/user/uc.user.go:151-204 | an update keeps the stores validated and the table keyed by each row's own id |
| UserProperties.DeletePreservesInvariant | usecase/user/uc.user.go:208-240 | a delete keeps the stores validated |
| UserProperties.ServePreservesInvariant | usecase/user/uc.user.go:35-240 | any sequence of creates, updates and deletes keeps the invariant |
| UserProperties.DeleteNeverClearsCache | usecase/user/uc.user.go:233 | in a state holding only validated addresses, the delete's cache call never removes an entry |
| UserProperties.ReachableDeleteKeepsCache | usecase/user/uc.user.go:233 | in every state the handlers can reach from empty stores, a delete leaves the cache as it was |
| UserProperties.DeleteKeepsEmailEntry | usecase/user/uc.user.go:233 | deleting by an id leaves the cache entry of a validated address and its value in place |
| UserProperties.CreateThenDeleteKeepsEmailEntry | usecase/user/uc.user.go:73 | after creating a user and deleting it by its id, the row is gone but `cache[email]` still holds the id |
| UserProperties.CreateWithFreshIdAddsOneRow | usecase/user/uc.user.go:57 | with an id the table did not hold, a successful create adds exactly that key and keeps every other row |
| UserProperties.CreateKeepsBodyId | usecase/user/uc.user.go:39-57 | a created user keeps a non-zero `id` from the body and is stored under it; without one it gets the assigned key |
| UserProperties.CreateThenGet | usecase/user/uc.user.go:57-86 | a created user is read back under the decimal spelling of its id |
| UserProperties.UpdateThenGet | usecase/user/uc.user.go:180-203 | after a successful update, a read under the saved id returns the updated user |
| UserProperties.UpdateWithNewIdKeepsOldRow | usecase/user/uc.user.go:162 | a body with another `id` saves under that key and leaves the loaded row in place |
| UserProperties.UpdateNotFoundIgnoresBody | usecase/user/uc.user.go:156-165 | when the lookup fails, the response and the stores do not depend on the body |
| UserProperties.CreateReportsFailingStep | usecase/user/uc.user.go:57-84 | the 500 response names the first failing step and carries its driver error; for RabbitMQ, the error of the first failing call among channel, declare and publish |

## Left out

- Configuration and bootstrap (environment loading, DSN building, driver connects and pings,
  router wiring) have no decisions to model. `config/config.go`, `model/model.setup.go`,
  `main.go` and `routes/route.go` are not part of this model.
- JSON binding is an input: `Payload` is a decode error or the optional fields `id`, `nama`
  and `email`. Gin's decoder and its error texts are not modelled.
- HTTP encoding is not modelled. Status and body are the `Outcome` datatype, without header
  or JSON bytes.
- Driver semantics the code does not show are not modelled: whether gorm `Delete` reports
  zero rows as an error, whether Mongo `UpdateOne` or `DeleteOne` with no match is an error,
  and Redis `Del` of a missing key. Each is only the injected `Call`. gorm `First` is the
  exception: a missing key is modelled as an error, as gorm reports it, whatever the
  injected call says.
- Driver error texts are not modelled. They are opaque strings carried into the 500 body.
- UserUseCase.Inserted: the key the table assigns when a create body has no non-zero `id` is
  an injected value. It is not necessarily fresh; freshness is a precondition only where a
  lemma needs it.
- UserUseCase.CreateUser: an insert under a key the table already holds is refused by the
  database with a duplicate-key error. The model leaves this to the injected insert outcome;
  when that outcome is success, the row is replaced.
- UserUseCase.UpdateUser: gorm `Save` with a zero id inserts a new row with a fresh id. The
  model saves under the bound id, including zero.
- UserUseCase.Lookup: a parameter `strconv.Atoi` rejects is run by gorm `First(&user, id)` as
  a raw SQL condition that may select a row (usecase/user/uc.user.go:142, 156). The model finds
  no row for it.
- UserUseCase.GetUser: gorm `First(&user, id)` with a non-numeric string builds a raw SQL
  condition. The model treats every such parameter as a failed lookup.
- UserUseCase.UpdateUser: the same raw-SQL lookup happens here (usecase/user/uc.user.go:156).
  A parameter such as `id=3` can load a row, and the update then goes ahead. The model answers
  404 for every parameter that does not parse as a number.
- UserUseCase.GetUsers: the order of the rows `Find` returns is left to the table. The
  contract fixes only which rows are listed.
- AMQP wire details are not modelled: exchange, durability and exclusivity flags, the
  content type and closing the channel. Publishing is "declare the queue, then append the
  message".
- Concurrency between requests is not modelled. Handlers run one at a time over one value
  of the stores.
- Go's regular-expression engine is not modelled. The model uses the language the pattern
  denotes and a matcher for it.

=== FILE: ascii.dfy ===
/** The ASCII character classes the validators and the id parser are written in. */
module Ascii {

  predicate IsAsciiLetter(c: char) {
    'a' <= c <= 'z' || 'A' <= c <= 'Z'
  }

  predicate IsAsciiDigit(c: char) {
    '0' <= c <= '9'
  }
}

=== FILE: backends.dfy ===
/** The four backing stores as one immutable value, and the store operations the user
    handlers issue. Whether a driver call succeeds is not decided here: every call the
    handlers make carries an injected `Call` saying so. */
module Backends {
  import opened Wrappers
  import opened Model

  /** What one driver call returned: nothing, or an error with its text. */
  datatype Call = Succeeds | Fails(err: string)

  /** The relational table of users by primary key (PostgreSQL through gorm); the `users`
      collection of the `user` database in natural order (MongoDB), whose documents carry
      the row's fields and are found by their numeric `id` field; the key-value cache
      (Redis); and the message queues with their undelivered messages (RabbitMQ). */
  datatype Stores = Stores(
    relational: map<int64, User>,
    documents: seq<User>,
    cache: map<string, int64>,
    queues: map<string, seq<string>>)

  const NoStores := Stores(map[], [], map[], map[])

  /** Every row sits under its own primary key. */
  predicate Keyed(rel: map<int64, User>) {
    forall k :: k in rel ==> rel[k].ID == k
  }

  /** The document a filter `{"id": id}` selects for `UpdateOne` and `DeleteOne`: the first
      one in natural order whose `id` field is `id`. */
  function FirstWithId(docs: seq<User>, id: int64): (r: Option<nat>)
    ensures r.None? <==> forall i :: 0 <= i < |docs| ==> docs[i].ID != id
    ensures r.Some? ==> r.value < |docs| && docs[r.value].ID == id
    ensures r.Some? ==> forall i :: 0 <= i < r.value ==> docs[i].ID != id
    decreases |docs|
  {
    if |docs| == 0 then None
    else if docs[0].ID == id then Some(0)
    else
      match FirstWithId(docs[1..], id)
      case None => None
      case Some(i) => Some(i + 1)
  }

  /** `UpdateOne({"id": id}, {"$set": {"nama": nama, "email": email}})`: the selected
      document takes the two fields, every other document is left alone, and no match
      changes nothing. */
  function SetFields(docs: seq<User>, id: int64, nama: string, email: string): (r: seq<User>)
    ensures |r| == |docs|
    ensures forall i :: 0 <= i < |docs| && Some(i) != FirstWithId(docs, id) ==> r[i] == docs[i]
    ensures FirstWithId(docs, id).Some? ==>
              var i := FirstWithId(docs, id).value;
              r[i] == User(id, nama, email)
  {
    match FirstWithId(docs, id)
    case None => docs
    case Some(i) => docs[i := docs[i].(Nama := nama, Email := email)]
  }

  /** `DeleteOne({"id": id})`: the selected document leaves, the others keep their order. */
  function RemoveFirst(docs: seq<User>, id: int64): (r: seq<User>)
    ensures FirstWithId(docs, id).None? ==> r == docs
    ensures FirstWithId(docs, id).Some? ==>
              var i := FirstWithId(docs, id).value;
              && |r| == |docs| - 1
              && (forall j :: 0 <= j < i ==> r[j] == docs[j])
              && (forall j :: i <= j < |r| ==> r[j] == docs[j + 1])
  {
    match FirstWithId(docs, id)
    case None => docs
    case Some(i) => docs[..i] + docs[i + 1..]
  }

  /** The messages waiting in a queue; a queue not yet declared holds none. */
  function Pending(queues: map<string, seq<string>>, name: string): seq<string> {
    if name in queues then queues[name] else []
  }
}

=== FILE: email_matcher.dfy ===
/** A left-to-right, one-character-at-a-time matcher for the address pattern, the way a
    regular-expression engine runs it, and the proof that it accepts exactly the
    well-formed addresses. */
module EmailMatcher {
  import opened Wrappers
  import opened EmailSyntax
  import opened Ascii

  /** What has been read since the domain's last `.` (or since the `@` when the domain has
      no `.` yet): only letters, counted up to two, or something else. */
  datatype Tail = Letters(n: nat) | Mixed

  /** The matcher's states. `InDomain` records whether the domain's last `.` so far has a
      character before it, and what follows that `.`. */
  datatype State = Start | InLocal | AfterAt | InDomain(dotInside: bool, tail: Tail) | Dead

  /** One more letter after the last `.`. */
  function Bump(t: Tail): Tail {
    match t
    case Letters(n) => Letters(if n < 2 then n + 1 else 2)
    case Mixed => Mixed
  }

  function Step(st: State, c: char): State {
    match st
    case Start => if IsLocalChar(c) then InLocal else Dead
    case InLocal =>
      if c == '@' then AfterAt
      else if IsLocalChar(c) then InLocal
      else Dead
    case AfterAt =>
      if c == '.' then InDomain(false, Letters(0))
      else if IsAsciiLetter(c) then InDomain(false, Letters(1))
      else if IsDomainChar(c) then InDomain(false, Mixed)
      else Dead
    case InDomain(inside, t) =>
      if c == '.' then InDomain(true, Letters(0))
      else if IsAsciiLetter(c) then InDomain(inside, Bump(t))
      else if IsDomainChar(c) then InDomain(inside, Mixed)
      else Dead
    case Dead => Dead
  }

  /** The state after reading all of `s`. */
  function Run(s: string): State
    decreases |s|
  {
    if |s| == 0 then Start else Step(Run(s[..|s| - 1]), s[|s| - 1])
  }

  /** The end of text is reached with a `.` inside the domain followed by two or more letters. */
  predicate Accepting(st: State) {
    st == InDomain(true, Letters(2))
  }

  /** Whether the domain's last `.` has a character before it. */
  function DotInside(domain: string): bool {
    match LastIndexOf(domain, '.')
    case Some(k) => k >= 1
    case None => false
  }

  /** The text after the domain's last `.`, or the whole domain when it has none. */
  function TailText(domain: string): string {
    match LastIndexOf(domain, '.')
    case Some(k) => domain[k + 1..]
    case None => domain
  }

  function Classify(t: string): Tail {
    if AllLetters(t) then Letters(if |t| < 2 then |t| else 2) else Mixed
  }

  /** The state the matcher should be in after reading `s`, read off the split form. */
  ghost function Expected(s: string): State {
    match IndexOf(s, '@')
    case None => if |s| == 0 then Start else if AllLocal(s) then InLocal else Dead
    case Some(at) =>
      var local, domain := s[..at], s[at + 1..];
      if at == 0 || !AllLocal(local) || !AllDomain(domain) then Dead
      else if |domain| == 0 then AfterAt
      else InDomain(DotInside(domain), Classify(TailText(domain)))
  }

  lemma IndexOfSnoc(p: string, c: char, x: char)
    ensures IndexOf(p + [c], x) ==
      if IndexOf(p, x).Some? then IndexOf(p, x)
      else if c == x then Some(|p|)
      else None
  {
    var s := p + [c];
    assert s[..|p|] == p;
    match IndexOf(p, x)
    case Some(i) =>
      assert s[..i] == p[..i];
      IndexOfIs(s, x, i);
    case None =>
      if c == x {
        IndexOfIs(s, x, |p|);
      }
  }

  lemma LastIndexOfSnoc(p: string, c: char, x: char)
    ensures LastIndexOf(p + [c], x) == if c == x then Some(|p|) else LastIndexOf(p, x)
  {
    assert (p + [c])[..|p|] == p;
  }

  lemma ClassifySnoc(t: string, c: char)
    ensures Classify(t + [c]) == if IsAsciiLetter(c) then Bump(Classify(t)) else Mixed
  {
    if !IsAsciiLetter(c) {
      assert (t + [c])[|t|] == c;
    } else if !AllLetters(t) {
      var i :| 0 <= i < |t| && !IsAsciiLetter(t[i]);
      assert (t + [c])[i] == t[i];
    }
  }

  /** Reading one more character into a non-empty domain. */
  lemma DomainSnoc(d: string, c: char)
    requires |d| >= 1 && AllDomain(d) && IsDomainChar(c)
    ensures InDomain(DotInside(d + [c]), Classify(TailText(d + [c])))
         == Step(InDomain(DotInside(d), Classify(TailText(d))), c)
  {
    LastIndexOfSnoc(d, c, '.');
    if c != '.' {
      match LastIndexOf(d, '.')
      case Some(k) =>
        assert (d + [c])[k + 1..] == d[k + 1..] + [c];
      case None =>
    }
    ClassifySnoc(TailText(d), c);
  }

  /** Reading the first character of the domain. */
  lemma FirstDomainChar(c: char)
    requires IsDomainChar(c)
    ensures InDomain(DotInside([c]), Classify(TailText([c]))) == Step(AfterAt, c)
  {
    LastIndexOfSnoc([], c, '.');
    assert [] + [c] == [c];
    ClassifySnoc([], c);
  }

  /** Slicing a string with one more character at its end. */
  lemma SnocSlices(p: string, c: char, i: nat)
    requires i <= |p|
    ensures (p + [c])[..i] == p[..i]
    ensures (p + [c])[i..] == p[i..] + [c]
  {
  }

  lemma AllLocalSnoc(p: string, c: char)
    ensures AllLocal(p + [c]) <==> AllLocal(p) && IsLocalChar(c)
  {
    var s := p + [c];
    assert s[|p|] == c;
    assert forall i :: 0 <= i < |p| ==> s[i] == p[i];
  }

  lemma AllDomainSnoc(p: string, c: char)
    ensures AllDomain(p + [c]) <==> AllDomain(p) && IsDomainChar(c)
  {
    var s := p + [c];
    assert s[|p|] == c;
    assert forall i :: 0 <= i < |p| ==> s[i] == p[i];
  }

  /** One more character while no `@` has been read. */
  lemma ExpectedStepLocal(p: string, c: char)
    requires IndexOf(p, '@').None?
    ensures Expected(p + [c]) == Step(Expected(p), c)
  {
    IndexOfSnoc(p, c, '@');
    if c != '@' {
      assert IndexOf(p + [c], '@').None?;
      AllLocalSnoc(p, c);
    } else {
      ExpectedStepAt(p);
    }
  }

  /** Reading the first `@`. */
  lemma ExpectedStepAt(p: string)
    requires IndexOf(p, '@').None?
    ensures Expected(p + ['@']) == Step(Expected(p), '@')
  {
    var s := p + ['@'];
    IndexOfSnoc(p, '@', '@');
    assert IndexOf(s, '@') == Some(|p|);
    SnocSlices(p, '@', |p|);
    assert s[..|p|] == p;
    assert s[|p| + 1..] == [];
  }

  /** A first `@` at the very start, or a character outside its class, rejects for good. */
  lemma ExpectedDead(s: string, at: nat)
    requires IndexOf(s, '@') == Some(at)
    requires at == 0 || !AllLocal(s[..at]) || !AllDomain(s[at + 1..])
    ensures Expected(s) == Dead
  {
  }

  /** Once the prefix is rejected, every extension is. */
  lemma ExpectedStepDead(p: string, c: char, at: nat)
    requires IndexOf(p, '@') == Some(at)
    requires at == 0 || !AllLocal(p[..at]) || !AllDomain(p[at + 1..])
    ensures Expected(p + [c]) == Dead
  {
    var s := p + [c];
    IndexOfSnoc(p, c, '@');
    assert IndexOf(s, '@') == Some(at);
    var domain := p[at + 1..];
    SnocSlices(p, c, at);
    SnocSlices(p, c, at + 1);
    AllDomainSnoc(domain, c);
    ExpectedDead(s, at);
  }

  /** One more character after the `@` of a prefix that is still alive. */
  lemma ExpectedStepLive(p: string, c: char, at: nat)
    requires IndexOf(p, '@') == Some(at)
    requires at != 0 && AllLocal(p[..at]) && AllDomain(p[at + 1..])
    ensures Expected(p + [c]) == Step(Expected(p), c)
  {
    var s := p + [c];
    IndexOfSnoc(p, c, '@');
    assert IndexOf(s, '@') == Some(at);
    var domain := p[at + 1..];
    SnocSlices(p, c, at);
    SnocSlices(p, c, at + 1);
    if !IsDomainChar(c) {
      assert (domain + [c])[|domain|] == c;
    } else if |domain| == 0 {
      assert domain + [c] == [c];
      FirstDomainChar(c);
    } else {
      DomainSnoc(domain, c);
    }
  }

  /** Reading one character moves the expected state by one matcher step. */
  lemma ExpectedStep(p: string, c: char)
    ensures Expected(p + [c]) == Step(Expected(p), c)
  {
    match IndexOf(p, '@')
    case None => ExpectedStepLocal(p, c);
    case Some(at) =>
      if at == 0 || !AllLocal(p[..at]) || !AllDomain(p[at + 1..]) {
        ExpectedStepDead(p, c, at);
      } else {
        ExpectedStepLive(p, c, at);
      }
  }

  /** The matcher is in the expected state after any input. */
  lemma {:induction false} RunIsExpected(s: string)
    ensures Run(s) == Expected(s)
    decreases |s|
  {
    if |s| > 0 {
      var p, c := s[..|s| - 1], s[|s| - 1];
      assert p + [c] == s;
      calc {
        Run(s);
        Step(Run(p), c);
        { RunIsExpected(p); }
        Step(Expected(p), c);
        { ExpectedStep(p, c); }
        Expected(p + [c]);
      }
    }
  }

  /** The matcher accepts exactly the well-formed addresses. */
  lemma RunAcceptsWellFormed(s: string)
    ensures Accepting(Run(s)) <==> WellFormed(s)
  {
    RunIsExpected(s);
    match IndexOf(s, '@')
    case None =>
    case Some(at) =>
      var domain := s[at + 1..];
      if AllDomain(domain) {
        assert '@' !in domain;
      }
  }
}

=== FILE: email_syntax.dfy ===
/** The address syntax accepted by `ValidateEmail`: the pattern
    `^[a-zA-Z0-9._%+-]+@[a-zA-Z0-9.-]+\.[a-zA-Z]{2,}$` over ASCII character classes,
    stated twice, once as the regular expression denotes it and once as a split at the `@`
    and at the domain's last `.`. */
module EmailSyntax {
  import opened Wrappers
  import opened Ascii

  /** The class `[a-zA-Z0-9._%+-]` of the local part. */
  predicate IsLocalChar(c: char) {
    IsAsciiLetter(c) || IsAsciiDigit(c) || c == '.' || c == '_' || c == '%' || c == '+' || c == '-'
  }

  /** The class `[a-zA-Z0-9.-]` of the domain. */
  predicate IsDomainChar(c: char) {
    IsAsciiLetter(c) || IsAsciiDigit(c) || c == '.' || c == '-'
  }

  predicate AllLocal(s: string) {
    forall i :: 0 <= i < |s| ==> IsLocalChar(s[i])
  }

  predicate AllDomain(s: string) {
    forall i :: 0 <= i < |s| ==> IsDomainChar(s[i])
  }

  predicate AllLetters(s: string) {
    forall i :: 0 <= i < |s| ==> IsAsciiLetter(s[i])
  }

  /** The position of the first `c` in `s`, if any. */
  function IndexOf(s: string, c: char): (r: Option<nat>)
    ensures r.None? <==> c !in s
    ensures r.Some? ==> r.value < |s| && s[r.value] == c && c !in s[..r.value]
  {
    if |s| == 0 then None
    else if s[0] == c then Some(0)
    else
      assert s == [s[0]] + s[1..];
      match IndexOf(s[1..], c)
      case None => None
      case Some(i) =>
        assert s[..i + 1] == [s[0]] + s[1..][..i];
        Some(i + 1)
  }

  /** The position of the last `c` in `s`, if any. */
  function LastIndexOf(s: string, c: char): (r: Option<nat>)
    ensures r.None? <==> c !in s
    ensures r.Some? ==> r.value < |s| && s[r.value] == c && c !in s[r.value + 1..]
  {
    if |s| == 0 then None
    else if s[|s| - 1] == c then Some(|s| - 1)
    else
      var front := s[..|s| - 1];
      assert s == front + [s[|s| - 1]];
      match LastIndexOf(front, c)
      case None => None
      case Some(i) =>
        assert s[i + 1..] == front[i + 1..] + [s[|s| - 1]];
        Some(i)
  }

  /** A `c` at `i` with none before it is the one IndexOf finds. */
  lemma IndexOfIs(s: string, c: char, i: nat)
    requires i < |s| && s[i] == c && c !in s[..i]
    ensures IndexOf(s, c) == Some(i)
  {
    assert c in s by { assert s[i] == c; }
  }

  /** A `c` at `i` with none after it is the one LastIndexOf finds. */
  lemma LastIndexOfIs(s: string, c: char, i: nat)
    requires i < |s| && s[i] == c && c !in s[i + 1..]
    ensures LastIndexOf(s, c) == Some(i)
  {
    assert c in s by { assert s[i] == c; }
  }

  /** The split reading: one `@`, a non-empty local part before it, and a domain after it
      whose last `.` has at least one character before it and at least two letters after it. */
  predicate WellFormed(s: string) {
    match IndexOf(s, '@')
    case None => false
    case Some(at) =>
      var local, domain := s[..at], s[at + 1..];
      && |local| >= 1
      && AllLocal(local)
      && '@' !in domain
      && AllDomain(domain)
      && match LastIndexOf(domain, '.')
         case None => false
         case Some(dot) => dot >= 1 && |domain| - dot - 1 >= 2 && AllLetters(domain[dot + 1..])
  }

  /** `s` matches the pattern with its `@` at `at` and its escaped `\.` at `dot`. */
  ghost predicate MatchesAt(s: string, at: int, dot: int) {
    && 0 < at && at + 1 < dot && dot + 2 < |s|
    && AllLocal(s[..at])
    && s[at] == '@'
    && AllDomain(s[at + 1..dot])
    && s[dot] == '.'
    && AllLetters(s[dot + 1..])
  }

  /** What the anchored regular expression denotes: some choice of the two split points. */
  ghost predicate MatchesPattern(s: string) {
    exists at, dot :: MatchesAt(s, at, dot)
  }

  /** A domain split at its `k`-th character is the `\.` of a match. */
  lemma SplitMatches(s: string, at: nat, k: nat)
    requires 1 <= at < |s| && s[at] == '@' && AllLocal(s[..at])
    requires AllDomain(s[at + 1..])
    requires 1 <= k && k + 3 <= |s[at + 1..]| && s[at + 1..][k] == '.'
    requires AllLetters(s[at + 1..][k + 1..])
    ensures MatchesAt(s, at, at + 1 + k)
  {
    var domain := s[at + 1..];
    var dot := at + 1 + k;
    var front := s[at + 1..dot];
    assert front == domain[..k];
    assert AllDomain(front) by {
      forall i | 0 <= i < |front|
        ensures IsDomainChar(front[i])
      {
        assert front[i] == domain[i];
      }
    }
    assert s[dot + 1..] == domain[k + 1..];
  }

  /** The split points of a well-formed address are a match of the pattern. */
  lemma WellFormedMatches(s: string)
    requires WellFormed(s)
    ensures MatchesPattern(s)
  {
    var at := IndexOf(s, '@').value;
    var k := LastIndexOf(s[at + 1..], '.').value;
    SplitMatches(s, at, k);
  }

  /** Any match of the pattern puts its `@` first and its `\.` last in the domain. */
  lemma MatchIsWellFormed(s: string, at: int, dot: int)
    requires MatchesAt(s, at, dot)
    ensures WellFormed(s)
  {
    assert '@' !in s[..at];
    IndexOfIs(s, '@', at);
    var domain := s[at + 1..];
    var k := dot - at - 1;
    assert domain == s[at + 1..dot] + ['.'] + s[dot + 1..];
    assert AllDomain(domain) by {
      forall i | 0 <= i < |domain|
        ensures IsDomainChar(domain[i])
      {
        if i < k {
          assert domain[i] == s[at + 1..dot][i];
        } else if i > k {
          assert domain[i] == s[dot + 1..][i - k - 1];
        }
      }
    }
    assert domain[k + 1..] == s[dot + 1..];
    assert '.' !in domain[k + 1..];
    LastIndexOfIs(domain, '.', k);
  }

  /** The split reading and the regular expression accept the same strings. */
  lemma WellFormedIffPattern(s: string)
    ensures WellFormed(s) <==> MatchesPattern(s)
  {
    if WellFormed(s) {
      WellFormedMatches(s);
    }
    if MatchesPattern(s) {
      var at, dot :| MatchesAt(s, at, dot);
      MatchIsWellFormed(s, at, dot);
    }
  }

  /** An accepted address has exactly one `@`. */
  lemma WellFormedHasOneAt(s: string)
    requires WellFormed(s)
    ensures '@' in s
    ensures forall j :: 0 <= j < |s| && s[j] == '@' ==> j == IndexOf(s, '@').value
  {
  }
}

=== FILE: id_parse.dfy ===
/** The `:id` path parameter as a base-10 signed 64-bit integer, the way
    `strconv.ParseInt(idStr, 10, 64)` reads it, and the decimal form that reads back. */
module IdParse {
  import opened Wrappers
  import opened Model
  import opened Ascii

  const MinInt64: int := -0x8000_0000_0000_0000
  const MaxInt64: int := 0x7FFF_FFFF_FFFF_FFFF

  predicate AllDigits(s: string) {
    forall i :: 0 <= i < |s| ==> IsAsciiDigit(s[i])
  }

  function DigitValue(c: char): nat
    requires IsAsciiDigit(c)
  {
    c as int - '0' as int
  }

  /** The number a run of decimal digits spells, most significant first. */
  function DecimalValue(digits: string): nat
    requires AllDigits(digits)
    decreases |digits|
  {
    if |digits| == 0 then 0
    else DecimalValue(digits[..|digits| - 1]) * 10 + DigitValue(digits[|digits| - 1])
  }

  /** The digits after an optional leading `+` or `-`. */
  function Unsigned(s: string): string {
    if |s| > 0 && (s[0] == '+' || s[0] == '-') then s[1..] else s
  }

  function Signed(negative: bool, magnitude: nat): int {
    if negative then -(magnitude as int) else magnitude
  }

  /** `strconv.ParseInt(s, 10, 64)`: an optional sign, then one or more ASCII digits (base 10
      admits no `_` separators), and a value inside the int64 range; anything else is an error. */
  function ParseInt64(s: string): (r: Option<int64>)
    ensures r.Some? <==> && |Unsigned(s)| >= 1 && AllDigits(Unsigned(s))
                         && MinInt64 <= Signed(s[0] == '-', DecimalValue(Unsigned(s))) <= MaxInt64
    ensures r.Some? ==> forall i :: 1 <= i < |s| ==> IsAsciiDigit(s[i])
    ensures r.Some? ==> '@' !in s
    ensures r.Some? ==> r.value as int == Signed(s[0] == '-', DecimalValue(Unsigned(s)))
  {
    var digits := Unsigned(s);
    if |digits| == 0 || !AllDigits(digits) then None
    else
      var v := Signed(s[0] == '-', DecimalValue(digits));
      if MinInt64 <= v <= MaxInt64 then Some(v as int64) else None
  }

  function DigitChar(d: nat): (c: char)
    requires d < 10
    ensures IsAsciiDigit(c) && DigitValue(c) == d
  {
    ('0' as int + d) as char
  }

  /** The shortest decimal spelling of `n`. */
  function NatToDecimal(n: nat): (digits: string)
    ensures |digits| >= 1 && AllDigits(digits)
    ensures DecimalValue(digits) == n
    ensures digits[0] != '+' && digits[0] != '-'
    decreases n
  {
    if n < 10 then [DigitChar(n)]
    else
      var front := NatToDecimal(n / 10);
      var digits := front + [DigitChar(n % 10)];
      assert digits[..|digits| - 1] == front;
      digits
  }

  /** `strconv.FormatInt(n, 10)`: the id string a client would put in the path for user `n`. */
  function FormatInt64(n: int64): (s: string)
    ensures ParseInt64(s) == Some(n)
  {
    if n < 0 then
      var digits := NatToDecimal(-(n as int));
      assert Unsigned("-" + digits) == digits;
      "-" + digits
    else
      NatToDecimal(n as int)
  }

  lemma ParseExamples()
    ensures ParseInt64("42") == Some(42)
    ensures ParseInt64("+7") == Some(7)
    ensures ParseInt64("-0") == Some(0)
    ensures ParseInt64("007") == Some(7)
    ensures ParseInt64("") == None
    ensures ParseInt64("-") == None
    ensures ParseInt64("1_000") == None
    ensures ParseInt64(" 1") == None
    ensures ParseInt64("a@b.co") == None
  {
    assert "42"[..1] == "4" && "4"[..0] == "";
    assert DecimalValue("42") == 42;
    assert "007"[..2] == "00" && "00"[..1] == "0";
    assert !IsAsciiDigit("1_000"[1]);
  }

  /** The int64 range is enforced at both ends: one past either end is an error. */
  lemma ParseRejectsOverflow()
    ensures ParseInt64(NatToDecimal(MaxInt64 + 1)) == None
    ensures ParseInt64("-" + NatToDecimal(-MinInt64 + 1)) == None
  {
    var up := NatToDecimal(MaxInt64 + 1);
    assert Unsigned(up) == up;
    var down := NatToDecimal(-MinInt64 + 1);
    assert Unsigned("-" + down) == down;
  }
}

=== FILE: model.dfy ===
/** The service's one entity, the `model.User` row. */
module Model {

  /** Go's `int64`. */
  newtype int64 = x: int | -0x8000_0000_0000_0000 <= x < 0x8000_0000_0000_0000

  /** A user: `ID` is the primary key, `Nama` the name and `Email` the address.
      The JSON tags are `id`, `nama` and `email`, so a request body can set any of the three. */
  datatype User = User(ID: int64, Nama: string, Email: string)

  /** The zero value of a freshly declared `model.User`. */
  const ZeroUser := User(0, "", "")
}

=== FILE: user_properties.dfy ===
/** Properties that relate several handler calls, or hold of every state the handlers can
    reach: what a later read sees after a write, the cache key a delete misses, and the
    invariant every handler keeps whatever its stores report. */
module UserProperties {
  import opened Wrappers
  import opened Model
  import opened Backends
  import opened Validation
  import opened IdParse
  import opened UserUseCase

  /** Rows sit under their own primary key and passed validation. */
  ghost predicate RowsValid(rel: map<int64, User>) {
    Keyed(rel) && forall k :: k in rel ==> Valid(rel[k])
  }

  ghost predicate DocumentsValid(docs: seq<User>) {
    forall i :: 0 <= i < |docs| ==> Valid(docs[i])
  }

  ghost predicate CacheKeysValid(cache: map<string, int64>) {
    forall e :: e in cache ==> ValidateEmail(e)
  }

  ghost predicate MessagesValid(msgs: seq<string>) {
    forall i :: 0 <= i < |msgs| ==> ValidateEmail(msgs[i])
  }

  ghost predicate QueuesValid(queues: map<string, seq<string>>) {
    forall q :: q in queues ==> MessagesValid(queues[q])
  }

  /** The stores hold only what passed validation: validated rows under their own keys,
      validated documents, validated emails as cache keys and as queued messages. */
  ghost predicate Invariant(s: Stores) {
    && RowsValid(s.relational)
    && DocumentsValid(s.documents)
    && CacheKeysValid(s.cache)
    && QueuesValid(s.queues)
  }

  lemma NoStoresInvariant()
    ensures Invariant(NoStores)
  {
  }

  lemma InsertRowValid(rel: map<int64, User>, u: User)
    requires RowsValid(rel) && Valid(u)
    ensures RowsValid(rel[u.ID := u])
  {
    var after := rel[u.ID := u];
    forall k | k in after
      ensures after[k].ID == k && Valid(after[k])
    {
      if k != u.ID {
        assert after[k] == rel[k];
      }
    }
  }

  lemma RemoveRowValid(rel: map<int64, User>, id: int64)
    requires RowsValid(rel)
    ensures RowsValid(rel - {id})
  {
  }

  lemma AppendDocumentValid(docs: seq<User>, u: User)
    requires DocumentsValid(docs) && Valid(u)
    ensures DocumentsValid(docs + [u])
  {
    forall i | 0 <= i < |docs| + 1
      ensures Valid((docs + [u])[i])
    {
      if i < |docs| {
        assert (docs + [u])[i] == docs[i];
      }
    }
  }

  /** Setting the fields of one document to those of a validated user keeps every document
      validated. */
  lemma SetFieldsKeepsValid(docs: seq<User>, u: User)
    requires DocumentsValid(docs) && Valid(u)
    ensures DocumentsValid(SetFields(docs, u.ID, u.Nama, u.Email))
  {
    var after := SetFields(docs, u.ID, u.Nama, u.Email);
    forall i | 0 <= i < |after|
      ensures Valid(after[i])
    {
      if Some(i) != FirstWithId(docs, u.ID) {
        assert after[i] == docs[i];
      } else {
        assert after[i] == u;
      }
    }
  }

  lemma RemoveFirstKeepsValid(docs: seq<User>, id: int64)
    requires DocumentsValid(docs)
    ensures DocumentsValid(RemoveFirst(docs, id))
  {
    var after := RemoveFirst(docs, id);
    match FirstWithId(docs, id)
    case None =>
    case Some(k) =>
      forall i | 0 <= i < |after|
        ensures Valid(after[i])
      {
        if i < k {
          assert after[i] == docs[i];
        } else {
          assert after[i] == docs[i + 1];
        }
      }
  }

  lemma CacheEmailValid(cache: map<string, int64>, email: string, id: int64)
    requires CacheKeysValid(cache) && ValidateEmail(email)
    ensures CacheKeysValid(cache[email := id])
  {
  }

  lemma EnqueueValid(queues: map<string, seq<string>>, name: string, msgs: seq<string>)
    requires QueuesValid(queues) && MessagesValid(msgs)
    ensures QueuesValid(queues[name := Pending(queues, name) + msgs])
  {
    var q := Pending(queues, name) + msgs;
    assert MessagesValid(q) by {
      forall i | 0 <= i < |q|
        ensures ValidateEmail(q[i])
      {
        if i >= |Pending(queues, name)| {
          assert q[i] == msgs[i - |Pending(queues, name)|];
        }
      }
    }
  }

  /** Any prefix of a create's writes of a validated user keeps the invariant. */
  lemma AfterWritesKeepsInvariant(s: Stores, u: User, k: nat)
    requires Invariant(s) && Valid(u)
    ensures Invariant(AfterWrites(s, u, k))
  {
    InsertRowValid(s.relational, u);
    AppendDocumentValid(s.documents, u);
    CacheEmailValid(s.cache, u.Email, u.ID);
    EnqueueValid(s.queues, UserCreatedQueue, if k >= 5 then [u.Email] else []);
  }

  lemma CreatePreservesInvariant(s: Stores, p: Payload, f: CreateFaults)
    requires Invariant(s)
    ensures Invariant(CreateUser(s, p, f).stores)
  {
    if AcceptableOver(ZeroUser, p) {
      AfterWritesKeepsInvariant(s, Inserted(p, f), CompletedWrites(f));
    }
  }

  lemma UpdatePreservesInvariant(s: Stores, idStr: string, p: Payload, f: UpdateFaults)
    requires Invariant(s)
    ensures Invariant(UpdateUser(s, idStr, p, f).stores)
  {
    var r := UpdateUser(s, idStr, p, f);
    var found := Lookup(s.relational, idStr, f.find);
    if found.Some? && AcceptableOver(found.value, p) && f.save.Succeeds? {
      var u := Bind(found.value, p);
      InsertRowValid(s.relational, u);
      SetFieldsKeepsValid(s.documents, u);
      var docs := if f.mirror.Succeeds? then SetFields(s.documents, u.ID, u.Nama, u.Email) else s.documents;
      assert r.stores == Stores(s.relational[u.ID := u], docs, s.cache, s.queues);
    } else {
      assert r.stores == s;
    }
  }

  lemma DeletePreservesInvariant(s: Stores, idStr: string, f: DeleteFaults)
    requires Invariant(s)
    ensures Invariant(DeleteUser(s, idStr, f).stores)
  {
    if ParseInt64(idStr).Some? {
      var id := ParseInt64(idStr).value;
      RemoveRowValid(s.relational, id);
      RemoveFirstKeepsValid(s.documents, id);
    }
  }

  /** A write request with the outcomes of its store calls. Reads are left out: they return
      no stores, so they cannot change them. */
  datatype Request =
    | CreateRequest(p: Payload, cf: CreateFaults)
    | UpdateRequest(idStr: string, up: Payload, uf: UpdateFaults)
    | DeleteRequest(delStr: string, df: DeleteFaults)

  function Apply(s: Stores, req: Request): Stores {
    match req
    case CreateRequest(p, f) => CreateUser(s, p, f).stores
    case UpdateRequest(idStr, p, f) => UpdateUser(s, idStr, p, f).stores
    case DeleteRequest(idStr, f) => DeleteUser(s, idStr, f).stores
  }

  /** The stores after serving `reqs` one after another. */
  function Serve(s: Stores, reqs: seq<Request>): Stores
    decreases |reqs|
  {
    if |reqs| == 0 then s else Serve(Apply(s, reqs[0]), reqs[1..])
  }

  /** Whatever the requests and whatever their store calls report, the invariant holds. */
  lemma {:induction false} ServePreservesInvariant(s: Stores, reqs: seq<Request>)
    requires Invariant(s)
    ensures Invariant(Serve(s, reqs))
    decreases |reqs|
  {
    if |reqs| > 0 {
      match reqs[0] {
        case CreateRequest(p, f) => CreatePreservesInvariant(s, p, f);
        case UpdateRequest(idStr, p, f) => UpdatePreservesInvariant(s, idStr, p, f);
        case DeleteRequest(idStr, f) => DeletePreservesInvariant(s, idStr, f);
      }
      ServePreservesInvariant(Apply(s, reqs[0]), reqs[1..]);
    }
  }

  /** Delete removes the cache key spelled by its path parameter, while create writes the
      cache under the email; a parameter that parses as a number has no `@` and a validated
      email has one, so in any state the handlers keep, a delete leaves the cache as it was. */
  lemma DeleteNeverClearsCache(s: Stores, idStr: string, f: DeleteFaults)
    requires CacheKeysValid(s.cache)
    ensures DeleteUser(s, idStr, f).stores.cache == s.cache
  {
    if idStr in s.cache {
      ValidEmailHasAt(idStr);
      assert ParseInt64(idStr).None?;
    } else {
      assert s.cache - {idStr} == s.cache;
    }
  }

  /** In every state reachable from empty stores, a delete leaves the cache untouched. */
  lemma ReachableDeleteKeepsCache(reqs: seq<Request>, idStr: string, f: DeleteFaults)
    ensures var s := Serve(NoStores, reqs); DeleteUser(s, idStr, f).stores.cache == s.cache
  {
    NoStoresInvariant();
    ServePreservesInvariant(NoStores, reqs);
    DeleteNeverClearsCache(Serve(NoStores, reqs), idStr, f);
  }

  /** Creating a user and then deleting it by its id removes the row but leaves the cache
      entry its create wrote under the email. */
  lemma CreateThenDeleteKeepsEmailEntry(s: Stores, p: Payload, cf: CreateFaults, idStr: string)
    requires CreateUser(s, p, cf).outcome.Created?
    requires ParseInt64(idStr) == Some(CreateUser(s, p, cf).outcome.user.ID)
    ensures var u := CreateUser(s, p, cf).outcome.user;
            var r := DeleteUser(CreateUser(s, p, cf).stores, idStr, DeleteFaults(Succeeds, Succeeds, Succeeds));
            && r.outcome == NoContent
            && u.ID !in r.stores.relational
            && u.Email in r.stores.cache && r.stores.cache[u.Email] == u.ID
  {
    var created := CreateUser(s, p, cf);
    var u := created.outcome.user;
    assert Valid(u);
    DeleteKeepsEmailEntry(created.stores, u.Email, u.ID, idStr);
  }

  /** Deleting by an id leaves the cache entry of a validated address in place. */
  lemma DeleteKeepsEmailEntry(t: Stores, email: string, id: int64, idStr: string)
    requires ValidateEmail(email) && email in t.cache && t.cache[email] == id
    requires ParseInt64(idStr) == Some(id)
    ensures var r := DeleteUser(t, idStr, DeleteFaults(Succeeds, Succeeds, Succeeds));
            && r.outcome == NoContent
            && id !in r.stores.relational
            && email in r.stores.cache && r.stores.cache[email] == id
  {
    ValidEmailHasAt(email);
    assert email != idStr;
  }

  /** With an id the table does not hold yet, a create adds one row and keeps every other. */
  lemma CreateWithFreshIdAddsOneRow(s: Stores, p: Payload, f: CreateFaults)
    requires p.Fields? && Inserted(p, f).ID !in s.relational
    requires CreateUser(s, p, f).outcome.Created?
    ensures var after := CreateUser(s, p, f).stores.relational;
            && |after| == |s.relational| + 1
            && after.Keys == s.relational.Keys + {Inserted(p, f).ID}
            && forall k :: k in s.relational ==> after[k] == s.relational[k]
  {
    var after := CreateUser(s, p, f).stores.relational;
    assert after.Keys == s.relational.Keys + {Inserted(p, f).ID};
  }

  /** A body with a non-zero `id` picks the created row's key; without one the table does. */
  lemma CreateKeepsBodyId(s: Stores, p: Payload, f: CreateFaults)
    requires CreateUser(s, p, f).outcome.Created?
    ensures var u := CreateUser(s, p, f).outcome.user;
            && (p.id.Some? && p.id.value != 0 ==> u.ID == p.id.value && u.ID in CreateUser(s, p, f).stores.relational)
            && (p.id.None? || p.id.value == 0 ==> u.ID == f.assignedId)
  {
  }

  /** A created user is found again under the decimal spelling of its id. */
  lemma CreateThenGet(s: Stores, p: Payload, f: CreateFaults)
    requires CreateUser(s, p, f).outcome.Created?
    ensures var u := CreateUser(s, p, f).outcome.user;
            GetUser(CreateUser(s, p, f).stores, FormatInt64(u.ID), Succeeds) == Ok(u)
  {
  }

  /** After a successful update a read returns the updated fields, under the id the update
      saved the row with. */
  lemma UpdateThenGet(s: Stores, idStr: string, p: Payload, f: UpdateFaults)
    requires UpdateUser(s, idStr, p, f).outcome.Ok?
    ensures var u := UpdateUser(s, idStr, p, f).outcome.user;
            GetUser(UpdateUser(s, idStr, p, f).stores, FormatInt64(u.ID), Succeeds) == Ok(u)
  {
  }

  /** A body carrying another `id` saves the row under that key and leaves the row it was
      loaded from in place. */
  lemma UpdateWithNewIdKeepsOldRow(s: Stores, idStr: string, p: Payload, f: UpdateFaults)
    requires UpdateUser(s, idStr, p, f).outcome.Ok?
    requires p.id.Some? && Some(p.id.value) != ParseInt64(idStr)
    ensures var after := UpdateUser(s, idStr, p, f).stores;
            var loaded := ParseInt64(idStr).value;
            && loaded in after.relational && after.relational[loaded] == s.relational[loaded]
            && p.id.value in after.relational
  {
  }

  /** A failed lookup answers 404 before the body is looked at. */
  lemma UpdateNotFoundIgnoresBody(s: Stores, idStr: string, p: Payload, q: Payload, f: UpdateFaults)
    requires UpdateUser(s, idStr, p, f).outcome.NotFound?
    ensures UpdateUser(s, idStr, q, f) == UpdateUser(s, idStr, p, f)
  {
  }

  /** The 500 response names the step that failed. */
  lemma CreateReportsFailingStep(s: Stores, p: Payload, f: CreateFaults)
    requires AcceptableOver(ZeroUser, p)
    ensures var o := CreateUser(s, p, f).outcome;
            && (f.insert.Fails? ==> o == Internal("Failed to create user", f.insert.err))
            && (CompletedWrites(f) == 1 ==> o == Internal("Failed to store user in MongoDB", f.mirror.err))
            && (CompletedWrites(f) == 2 ==> o == Internal("Failed to store session in Redis", f.cacheSet.err))
            && (CompletedWrites(f) in {3, 4} ==>
                  var pub := f.publishing;
                  var failed := if pub.channel.Fails? then pub.channel
                                else if pub.declare.Fails? then pub.declare
                                else pub.publish;
                  failed.Fails? && o == Internal("Failed to send message to RabbitMQ", failed.err))
  {
  }
}

=== FILE: user_usecase.dfy ===
/** The user use-case: the five HTTP handlers and `SendMessage`, each a step from the stores
    and a decoded request to new stores and an outcome. A handler validates before it writes,
    checks the email before the name, and stops at the first failing store call without
    undoing the writes already made. */
module UserUseCase {
  import opened Wrappers
  import opened Model
  import opened Backends
  import opened Validation
  import opened IdParse

  /** A request body as JSON binding leaves it: a decoding error, or the fields it holds. */
  datatype Payload =
    | Malformed(err: string)
    | Fields(id: Option<int64>, nama: Option<string>, email: Option<string>)

  /** The response: the status and what the body carries. */
  datatype Outcome =
    | Created(user: User)                       // 201, the new user
    | Ok(user: User)                            // 200, one user
    | Listed(users: seq<User>)                  // 200, every user
    | NoContent                                 // 204
    | BadRequest(message: string)               // 400
    | NotFound                                  // 404, "User not found"
    | Internal(error: string, message: string)  // 500, what failed and the driver's error

  /** What a handler leaves behind. */
  datatype Handled = Handled(stores: Stores, outcome: Outcome)

  const UserCreatedQueue := "user_created"
  const InvalidEmailFormat := "Invalid email format"
  const NameOutOfRange := "Name must be between 5 and 10 characters"
  const InvalidUserId := "Invalid user ID"

  /** Binding a body into `base`: the fields present overwrite, the others stay. */
  function Bind(base: User, p: Payload): (u: User)
    requires p.Fields?
    ensures p.id.Some? ==> u.ID == p.id.value
    ensures p.id.None? ==> u.ID == base.ID
    ensures p.nama.Some? ==> u.Nama == p.nama.value
    ensures p.nama.None? ==> u.Nama == base.Nama
    ensures p.email.Some? ==> u.Email == p.email.value
    ensures p.email.None? ==> u.Email == base.Email
  {
    User(p.id.GetOr(base.ID), p.nama.GetOr(base.Nama), p.email.GetOr(base.Email))
  }

  /** Both validators accept the user. */
  predicate Valid(u: User) {
    ValidateEmail(u.Email) && ValidateNameLength(u.Nama)
  }

  /** The body decodes and, bound into `base`, passes validation. */
  predicate AcceptableOver(base: User, p: Payload) {
    p.Fields? && Valid(Bind(base, p))
  }

  /** The first validation failure, email before name. */
  function Check(u: User): Option<string> {
    if !ValidateEmail(u.Email) then Some(InvalidEmailFormat)
    else if !ValidateNameLength(u.Nama) then Some(NameOutOfRange)
    else None
  }

  /** The three AMQP calls of a publish: open a channel, declare the queue, publish. */
  datatype Publishing = Publishing(channel: Call, declare: Call, publish: Call)

  datatype Sent = Sent(queues: map<string, seq<string>>, result: Call)

  /** Publish `message` on `queueName` through a fresh channel, declaring the queue first;
      the first failing call's error is returned and nothing after it happens. */
  function SendMessage(queues: map<string, seq<string>>, queueName: string, message: string,
                       f: Publishing): (r: Sent)
    ensures r.result.Succeeds? <==> f.channel.Succeeds? && f.declare.Succeeds? && f.publish.Succeeds?
    ensures r.result.Fails? ==>
              r.result == if f.channel.Fails? then f.channel
                          else if f.declare.Fails? then f.declare
                          else f.publish
    ensures f.channel.Fails? || f.declare.Fails? ==> r.queues == queues
    ensures f.channel.Succeeds? && f.declare.Succeeds? ==> queueName in r.queues
    ensures queueName in r.queues ==>
              r.queues[queueName] == Pending(queues, queueName) + if r.result.Succeeds? then [message] else []
    ensures forall q :: q != queueName ==>
              (q in r.queues <==> q in queues) && (q in r.queues ==> r.queues[q] == queues[q])
  {
    if f.channel.Fails? then Sent(queues, f.channel)
    else if f.declare.Fails? then Sent(queues, f.declare)
    else
      var declared := queues[queueName := Pending(queues, queueName)];
      if f.publish.Fails? then Sent(declared, f.publish)
      else Sent(declared[queueName := Pending(queues, queueName) + [message]], Succeeds)
  }

  /** The store calls of a create: the row insert with the id the table assigns, the document
      insert, the cache write, and the publish. */
  datatype CreateFaults = CreateFaults(insert: Call, assignedId: int64, mirror: Call,
                                       cacheSet: Call, publishing: Publishing)

  /** The row `DB.Create` inserts: the body bound into a zero user, under the body's own `id`
      when that is non-zero, and otherwise under the key the table assigns. */
  function Inserted(p: Payload, f: CreateFaults): (u: User)
    requires p.Fields?
    ensures u.Nama == Bind(ZeroUser, p).Nama && u.Email == Bind(ZeroUser, p).Email
    ensures p.id.Some? && p.id.value != 0 ==> u.ID == p.id.value
    ensures p.id.None? || p.id.value == 0 ==> u.ID == f.assignedId
  {
    var candidate := Bind(ZeroUser, p);
    candidate.(ID := if candidate.ID != 0 then candidate.ID else f.assignedId)
  }

  /** The five writes a create can make, in order. */
  const CreateWrites: nat := 5

  /** How many of a create's writes take effect before the first failing call: the row, the
      document, the cache entry, the queue declaration, the message. */
  function CompletedWrites(f: CreateFaults): (k: nat)
    ensures k <= CreateWrites
  {
    if f.insert.Fails? then 0
    else if f.mirror.Fails? then 1
    else if f.cacheSet.Fails? then 2
    else if f.publishing.channel.Fails? || f.publishing.declare.Fails? then 3
    else if f.publishing.publish.Fails? then 4
    else 5
  }

  /** The stores once the first `k` writes of creating `u` have taken effect. */
  function AfterWrites(s: Stores, u: User, k: nat): Stores {
    var queue := Pending(s.queues, UserCreatedQueue) + if k >= 5 then [u.Email] else [];
    Stores(
      if k >= 1 then s.relational[u.ID := u] else s.relational,
      if k >= 2 then s.documents + [u] else s.documents,
      if k >= 3 then s.cache[u.Email := u.ID] else s.cache,
      if k >= 4 then s.queues[UserCreatedQueue := queue] else s.queues)
  }

  /** `CreateUser`: bind the body into a zero user, validate, insert the row, mirror it as a
      document, index its id under its email in the cache, announce the email on
      `user_created`. */
  function CreateUser(s: Stores, p: Payload, f: CreateFaults): (r: Handled)
    ensures r.outcome.BadRequest? || r.outcome.Internal? || r.outcome.Created?
    ensures r.outcome.BadRequest? <==> !AcceptableOver(ZeroUser, p)
    ensures r.outcome.BadRequest? ==> r.stores == s
    ensures p.Malformed? ==> r.outcome == BadRequest(p.err)
    ensures p.Fields? && !ValidateEmail(Bind(ZeroUser, p).Email) ==>
              r.outcome == BadRequest(InvalidEmailFormat)
    ensures p.Fields? && ValidateEmail(Bind(ZeroUser, p).Email) && !ValidateNameLength(Bind(ZeroUser, p).Nama) ==>
              r.outcome == BadRequest(NameOutOfRange)
    ensures AcceptableOver(ZeroUser, p) ==>
              r.stores == AfterWrites(s, Inserted(p, f), CompletedWrites(f))
    ensures r.outcome.Created? <==> AcceptableOver(ZeroUser, p) && CompletedWrites(f) == CreateWrites
    ensures r.outcome.Created? ==>
              var u := r.outcome.user;
              && u == Inserted(p, f)
              && r.stores.relational == s.relational[u.ID := u]
              && r.stores.documents == s.documents + [u]
              && r.stores.cache == s.cache[u.Email := u.ID]
              && r.stores.queues == s.queues[UserCreatedQueue := Pending(s.queues, UserCreatedQueue) + [u.Email]]
  {
    if p.Malformed? then Handled(s, BadRequest(p.err))
    else
      var candidate := Bind(ZeroUser, p);
      match Check(candidate)
      case Some(msg) => Handled(s, BadRequest(msg))
      case None =>
        if f.insert.Fails? then Handled(s, Internal("Failed to create user", f.insert.err))
        else
          var u := Inserted(p, f);
          var s1 := s.(relational := s.relational[u.ID := u]);
          if f.mirror.Fails? then Handled(s1, Internal("Failed to store user in MongoDB", f.mirror.err))
          else
            var s2 := s1.(documents := s1.documents + [u]);
            if f.cacheSet.Fails? then Handled(s2, Internal("Failed to store session in Redis", f.cacheSet.err))
            else
              var s3 := s2.(cache := s2.cache[u.Email := u.ID]);
              var sent := SendMessage(s3.queues, UserCreatedQueue, u.Email, f.publishing);
              var s4 := s3.(queues := sent.queues);
              match sent.result
              case Fails(err) => Handled(s4, Internal("Failed to send message to RabbitMQ", err))
              case Succeeds => Handled(s4, Created(u))
  }

  /** The rows of a table, each once, in an order the table chooses: the `i`-th row is the
      one under the `i`-th of a list of distinct keys covering the table. */
  method EnumerateRows(rel: map<int64, User>) returns (rows: seq<User>, keys: seq<int64>)
    ensures |keys| == |rows| == |rel|
    ensures forall i :: 0 <= i < |keys| ==> keys[i] in rel && rows[i] == rel[keys[i]]
    ensures forall k :: k in rel ==> k in keys
    ensures forall i, j :: 0 <= i < j < |keys| ==> keys[i] != keys[j]
  {
    var remaining := rel.Keys;
    rows := [];
    keys := [];
    ghost var listed: set<int64> := {};
    while remaining != {}
      invariant remaining !! listed && remaining + listed == rel.Keys
      invariant |keys| == |rows| == |listed|
      invariant forall i :: 0 <= i < |keys| ==> keys[i] in listed && rows[i] == rel[keys[i]]
      invariant forall k :: k in listed ==> k in keys
      invariant forall i, j :: 0 <= i < j < |keys| ==> keys[i] != keys[j]
      decreases remaining
    {
      var k :| k in remaining;
      assert forall i :: 0 <= i < |keys| ==> keys[i] != k;
      rows := rows + [rel[k]];
      keys := keys + [k];
      listed := listed + {k};
      remaining := remaining - {k};
    }
    assert listed == rel.Keys;
  }

  /** `rows` lists the table through `keys`: one distinct key per position, every key of the
      table among them, and each row the one stored under its key. */
  predicate ListsTable(rel: map<int64, User>, keys: seq<int64>, rows: seq<User>)
  {
    && |keys| == |rows| == |rel|
    && (forall i :: 0 <= i < |keys| ==> keys[i] in rel && rows[i] == rel[keys[i]])
    && (forall k :: k in rel ==> k in keys)
    && (forall i, j :: 0 <= i < j < |keys| ==> keys[i] != keys[j])
  }

  /** `DB.Find(&users)`: every row, in an order the table chooses. */
  method GetUsers(s: Stores, find: Call) returns (o: Outcome)
    ensures find.Fails? ==> o == Internal("Failed to retrieve users", find.err)
    ensures find.Succeeds? ==> o.Listed?
    ensures o.Listed? ==> |o.users| == |s.relational|
    ensures o.Listed? ==> forall i :: 0 <= i < |o.users| ==> o.users[i] in s.relational.Values
    ensures o.Listed? ==> forall k :: k in s.relational ==> s.relational[k] in o.users
    ensures o.Listed? && Keyed(s.relational) ==>
              forall i, j :: 0 <= i < j < |o.users| ==> o.users[i].ID != o.users[j].ID
    ensures o.Listed? ==> exists keys :: ListsTable(s.relational, keys, o.users)
  {
    if find.Fails? {
      return Internal("Failed to retrieve users", find.err);
    }
    var rows, keys := EnumerateRows(s.relational);
    forall k | k in s.relational
      ensures s.relational[k] in rows
    {
      var i :| 0 <= i < |keys| && keys[i] == k;
      assert rows[i] == s.relational[k];
    }
    assert ListsTable(s.relational, keys, rows);
    o := Listed(rows);
  }

  /** `DB.First(&user, id)` with the path parameter: the row whose primary key the parameter
      spells in decimal; a failing call, a parameter that is not a number and a key with no
      row all come back as an error. */
  function Lookup(rel: map<int64, User>, idStr: string, find: Call): (r: Option<User>)
    ensures r.Some? <==> find.Succeeds? && ParseInt64(idStr).Some? && ParseInt64(idStr).value in rel
    ensures r.Some? ==> r.value == rel[ParseInt64(idStr).value]
    ensures r.Some? && Keyed(rel) ==> r.value.ID == ParseInt64(idStr).value
  {
    if find.Fails? then None
    else
      match ParseInt64(idStr)
      case None => None
      case Some(id) => if id in rel then Some(rel[id]) else None
  }

  /** `GetUser`: the row named by the path, or 404 for any error of the lookup. */
  function GetUser(s: Stores, idStr: string, find: Call): (o: Outcome)
    ensures o.Ok? || o == NotFound
    ensures o.Ok? <==> find.Succeeds? && ParseInt64(idStr).Some? && ParseInt64(idStr).value in s.relational
    ensures o.Ok? ==> o.user == s.relational[ParseInt64(idStr).value]
  {
    match Lookup(s.relational, idStr, find)
    case Some(u) => Ok(u)
    case None => NotFound
  }

  /** The store calls of an update: the lookup, the row save, the document update. */
  datatype UpdateFaults = UpdateFaults(find: Call, save: Call, mirror: Call)

  /** `UpdateUser`: load the row, bind the body over it, validate, save the row by its
      (possibly rebound) primary key, then set `nama` and `email` on the document whose `id`
      is that key. The cache and the queues are never touched. */
  function UpdateUser(s: Stores, idStr: string, p: Payload, f: UpdateFaults): (r: Handled)
    ensures r.stores.cache == s.cache && r.stores.queues == s.queues
    ensures r.outcome.NotFound? || r.outcome.BadRequest? || r.outcome.Internal? || r.outcome.Ok?
    ensures r.outcome.NotFound? <==> Lookup(s.relational, idStr, f.find).None?
    ensures r.outcome.NotFound? || r.outcome.BadRequest? ==> r.stores == s
    ensures Lookup(s.relational, idStr, f.find).Some? ==>
              var row := Lookup(s.relational, idStr, f.find).value;
              && (r.outcome.BadRequest? <==> !AcceptableOver(row, p))
              && (p.Malformed? ==> r.outcome == BadRequest(p.err))
              && (p.Fields? && !ValidateEmail(Bind(row, p).Email) ==> r.outcome == BadRequest(InvalidEmailFormat))
              && (p.Fields? && ValidateEmail(Bind(row, p).Email) && !ValidateNameLength(Bind(row, p).Nama) ==>
                    r.outcome == BadRequest(NameOutOfRange))
              && (r.outcome.Ok? <==> AcceptableOver(row, p) && f.save.Succeeds? && f.mirror.Succeeds?)
              && (AcceptableOver(row, p) && f.save.Fails? ==> r.stores == s)
              && (AcceptableOver(row, p) && f.save.Succeeds? ==>
                    r.stores.relational == s.relational[Bind(row, p).ID := Bind(row, p)])
              && (AcceptableOver(row, p) && f.mirror.Fails? ==> r.stores.documents == s.documents)
              && (AcceptableOver(row, p) && f.save.Fails? ==>
                    r.outcome == Internal("Failed to update user", f.save.err))
              && (AcceptableOver(row, p) && f.save.Succeeds? && f.mirror.Fails? ==>
                    r.outcome == Internal("Failed to update user in MongoDB", f.mirror.err))
    ensures r.outcome.Ok? ==>
              var row := Lookup(s.relational, idStr, f.find).value;
              var u := r.outcome.user;
              && (p.id.Some? ==> u.ID == p.id.value) && (p.id.None? ==> u.ID == row.ID)
              && (p.nama.Some? ==> u.Nama == p.nama.value) && (p.nama.None? ==> u.Nama == row.Nama)
              && (p.email.Some? ==> u.Email == p.email.value) && (p.email.None? ==> u.Email == row.Email)
              && Valid(u)
              && r.stores.relational == s.relational[u.ID := u]
              && r.stores.documents == SetFields(s.documents, u.ID, u.Nama, u.Email)
  {
    match Lookup(s.relational, idStr, f.find)
    case None => Handled(s, NotFound)
    case Some(row) =>
      if p.Malformed? then Handled(s, BadRequest(p.err))
      else
        var u := Bind(row, p);
        match Check(u)
        case Some(msg) => Handled(s, BadRequest(msg))
        case None =>
          if f.save.Fails? then Handled(s, Internal("Failed to update user", f.save.err))
          else
            var s1 := s.(relational := s.relational[u.ID := u]);
            if f.mirror.Fails? then Handled(s1, Internal("Failed to update user in MongoDB", f.mirror.err))
            else Handled(s1.(documents := SetFields(s1.documents, u.ID, u.Nama, u.Email)), Ok(u))
  }

  /** The store calls of a delete: the row delete, the document delete, the cache delete. */
  datatype DeleteFaults = DeleteFaults(delete: Call, mirror: Call, cacheDel: Call)

  /** `DeleteUser`: parse the id, delete the row, delete the document whose `id` is that
      number, and delete the cache key spelled by the path parameter itself. */
  function DeleteUser(s: Stores, idStr: string, f: DeleteFaults): (r: Handled)
    ensures r.stores.queues == s.queues
    ensures r.outcome.NoContent? || r.outcome.BadRequest? || r.outcome.NotFound? || r.outcome.Internal?
    ensures ParseInt64(idStr).None? ==> r == Handled(s, BadRequest(InvalidUserId))
    ensures r.outcome.BadRequest? <==> ParseInt64(idStr).None?
    ensures r.outcome.NotFound? <==> ParseInt64(idStr).Some? && f.delete.Fails?
    ensures r.outcome.NotFound? ==> r.stores == s
    ensures ParseInt64(idStr).Some? && f.delete.Succeeds? ==>
              var id := ParseInt64(idStr).value;
              && r.stores.relational == s.relational - {id}
              && r.stores.documents == if f.mirror.Succeeds? then RemoveFirst(s.documents, id) else s.documents
    ensures r.outcome.NoContent? <==>
              ParseInt64(idStr).Some? && f.delete.Succeeds? && f.mirror.Succeeds? && f.cacheDel.Succeeds?
    ensures ParseInt64(idStr).Some? && f.delete.Succeeds? && f.mirror.Fails? ==>
              r.outcome == Internal("Failed to delete user from MongoDB", f.mirror.err)
    ensures ParseInt64(idStr).Some? && f.delete.Succeeds? && f.mirror.Succeeds? && f.cacheDel.Fails? ==>
              r.outcome == Internal("Failed to delete session from Redis", f.cacheDel.err)
    ensures r.stores.cache == if r.outcome.NoContent? then s.cache - {idStr} else s.cache
  {
    match ParseInt64(idStr)
    case None => Handled(s, BadRequest(InvalidUserId))
    case Some(id) =>
      if f.delete.Fails? then Handled(s, NotFound)
      else
        var s1 := s.(relational := s.relational - {id});
        if f.mirror.Fails? then Handled(s1, Internal("Failed to delete user from MongoDB", f.mirror.err))
        else
          var s2 := s1.(documents := RemoveFirst(s1.documents, id));
          if f.cacheDel.Fails? then Handled(s2, Internal("Failed to delete session from Redis", f.cacheDel.err))
          else Handled(s2.(cache := s2.cache - {idStr}), NoContent)
  }
}

=== FILE: utf8.dfy ===
/** UTF-8, the byte form of a Go string. Go's `len` of a string counts these bytes, not
    characters, so the name-length rule is a rule about the encoded length. */
module Utf8 {

  newtype byte = x: int | 0 <= x < 0x100

  /** Bytes a character takes in UTF-8 (section 3 of RFC 3629). */
  function Width(c: char): nat {
    var n := c as int;
    if n < 0x80 then 1
    else if n < 0x800 then 2
    else if n < 0x1_0000 then 3
    else 4
  }

  predicate IsContinuation(b: byte) {
    0x80 <= b < 0xC0
  }

  /** Splitting off the low six bits. */
  lemma SixBits(n: nat)
    ensures n == n / 0x40 * 0x40 + n % 0x40
    ensures 0 <= n % 0x40 < 0x40
  {
  }

  /** The UTF-8 encoding of one character: a lead byte, then 6 bits per continuation byte,
      most significant first. */
  function EncodeChar(c: char): (bytes: seq<byte>)
    ensures 1 <= |bytes| <= 4
    ensures |bytes| == Width(c)
    ensures |bytes| == 1 ==> bytes[0] as int == c as int
    ensures |bytes| > 1 ==> 0xC0 <= bytes[0] && !IsContinuation(bytes[0])
    ensures forall i :: 1 <= i < |bytes| ==> IsContinuation(bytes[i])
    ensures DecodeChar(bytes) == c as int
  {
    var n := c as int;
    var n1 := n / 0x40;
    var n2 := n1 / 0x40;
    var n3 := n2 / 0x40;
    SixBits(n);
    SixBits(n1);
    SixBits(n2);
    var b0 := (0x80 + n % 0x40) as byte;
    var b1 := (0x80 + n1 % 0x40) as byte;
    var b2 := (0x80 + n2 % 0x40) as byte;
    if n < 0x80 then [n as byte]
    else if n < 0x800 then [(0xC0 + n1) as byte, b0]
    else if n < 0x1_0000 then [(0xE0 + n2) as byte, b1, b0]
    else [(0xF0 + n3) as byte, b2, b1, b0]
  }

  /** The scalar value spelled by one character's bytes: the payload bits of the lead byte
      followed by the low six bits of each continuation byte. */
  function DecodeChar(bytes: seq<byte>): int
    requires 1 <= |bytes| <= 4
  {
    match |bytes|
    case 1 => bytes[0] as int
    case 2 => (bytes[0] as int - 0xC0) * 0x40 + (bytes[1] as int - 0x80)
    case 3 => ((bytes[0] as int - 0xE0) * 0x40 + (bytes[1] as int - 0x80)) * 0x40 + (bytes[2] as int - 0x80)
    case 4 =>
      (((bytes[0] as int - 0xF0) * 0x40 + (bytes[1] as int - 0x80)) * 0x40 + (bytes[2] as int - 0x80)) * 0x40
      + (bytes[3] as int - 0x80)
  }

  /** The bytes of a Go string holding `s`. */
  function Encode(s: string): seq<byte>
    decreases |s|
  {
    if |s| == 0 then [] else EncodeChar(s[0]) + Encode(s[1..])
  }

  /** Go's `len`: the encoded length, summed character by character without encoding. */
  function ByteLength(s: string): nat
    decreases |s|
  {
    if |s| == 0 then 0 else Width(s[0]) + ByteLength(s[1..])
  }

  lemma {:induction false} ByteLengthIsEncodedLength(s: string)
    ensures ByteLength(s) == |Encode(s)|
    decreases |s|
  {
    if |s| > 0 {
      ByteLengthIsEncodedLength(s[1..]);
      assert |EncodeChar(s[0])| == Width(s[0]);
    }
  }

  /** Every character takes one to four bytes. */
  lemma {:induction false} ByteLengthBounds(s: string)
    ensures |s| <= ByteLength(s) <= 4 * |s|
    decreases |s|
  {
    if |s| > 0 {
      ByteLengthBounds(s[1..]);
    }
  }

  /** On ASCII text bytes and characters coincide. */
  lemma {:induction false} AsciiByteLength(s: string)
    requires forall i :: 0 <= i < |s| ==> s[i] as int < 0x80
    ensures ByteLength(s) == |s|
    decreases |s|
  {
    if |s| > 0 {
      assert s[0] as int < 0x80;
      AsciiByteLength(s[1..]);
    }
  }
}

=== FILE: validation.dfy ===
/** The two request validators of the user use-case: `ValidateEmail` and `ValidateNameLength`. */
module Validation {
  import opened EmailSyntax
  import opened Ascii
  import EmailMatcher
  import Utf8

  const MinNameLength: nat := 5
  const MaxNameLength: nat := 10

  /** The anchored match of `^[a-zA-Z0-9._%+-]+@[a-zA-Z0-9.-]+\.[a-zA-Z]{2,}$`, run
      character by character. */
  function ValidateEmail(email: string): (ok: bool)
    ensures ok <==> MatchesPattern(email)
    ensures ok <==> WellFormed(email)
  {
    EmailMatcher.RunAcceptsWellFormed(email);
    WellFormedIffPattern(email);
    EmailMatcher.Accepting(EmailMatcher.Run(email))
  }

  /** Go's `len(name)` between the two bounds, inclusive: a count of UTF-8 bytes. */
  function ValidateNameLength(name: string): (ok: bool)
    ensures ok <==> MinNameLength <= |Utf8.Encode(name)| <= MaxNameLength
  {
    Utf8.ByteLengthIsEncodedLength(name);
    MinNameLength <= Utf8.ByteLength(name) <= MaxNameLength
  }

  /** An accepted address contains an `@`; this is what keeps it apart from any numeric id. */
  lemma ValidEmailHasAt(email: string)
    requires ValidateEmail(email)
    ensures '@' in email
  {
    WellFormedHasOneAt(email);
  }


  /** Addresses the pattern accepts; the domain class contains `.`, so a domain may start
      with `.` as long as another `.` follows. */
  lemma EmailAcceptedExamples()
    ensures ValidateEmail("a@b.co")
    ensures ValidateEmail("Alice.B+tag@mail-1.example.ORG")
    ensures ValidateEmail("a@..co")
  {
    assert MatchesAt("a@b.co", 1, 3);
    assert MatchesAt("Alice.B+tag@mail-1.example.ORG", 11, 26);
    assert MatchesAt("a@..co", 1, 3);
  }

  /** The final label needs two letters or more. */
  lemma EmailRejectsShortFinalLabel()
    ensures !ValidateEmail("a@b.c")
  {
    assert "a@b.c"[..1] == "a" && "a@b.c"[2..] == "b.c" && "b.c"[2..] == "c";
    IndexOfIs("a@b.c", '@', 1);
    LastIndexOfIs("b.c", '.', 1);
  }

  /** Some character must stand between the `@` and the domain's last `.`. */
  lemma EmailRejectsEmptyDomainFront()
    ensures !ValidateEmail("a@.co")
  {
    assert "a@.co"[..1] == "a" && "a@.co"[2..] == ".co" && ".co"[1..] == "co";
    IndexOfIs("a@.co", '@', 1);
    LastIndexOfIs(".co", '.', 0);
  }

  /** The final label holds letters only. */
  lemma EmailRejectsDigitInFinalLabel()
    ensures !ValidateEmail("a@b.co1")
  {
    assert "a@b.co1"[..1] == "a" && "a@b.co1"[2..] == "b.co1" && "b.co1"[2..] == "co1";
    IndexOfIs("a@b.co1", '@', 1);
    LastIndexOfIs("b.co1", '.', 1);
    assert !IsAsciiLetter("co1"[2]);
  }

  /** Other rejected shapes: an empty local part, two `@`, no `@`, and a trailing newline
      (`$` is the end of the text). */
  lemma EmailRejectedShapes()
    ensures !ValidateEmail("@b.co")
    ensures !ValidateEmail("a@b@c.co")
    ensures !ValidateEmail("ab.co")
    ensures !ValidateEmail("a@b.co\n")
  {
    IndexOfIs("@b.co", '@', 0);
    assert "a@b@c.co"[..1] == "a" && "a@b@c.co"[2..] == "b@c.co" && "b@c.co"[1] == '@';
    IndexOfIs("a@b@c.co", '@', 1);
    assert "a@b.co\n"[..1] == "a" && "a@b.co\n"[2..] == "b.co\n" && !IsDomainChar("b.co\n"[4]);
    IndexOfIs("a@b.co\n", '@', 1);
  }

  /** The bounds are inclusive and measured in bytes: three two-byte letters fit although they
      are only three characters, six of them do not although they are only six. */
  lemma NameLengthExamples()
    ensures ValidateNameLength("Alice")
    ensures ValidateNameLength("Alice12345")
    ensures !ValidateNameLength("Alic")
    ensures !ValidateNameLength("Alice123456")
    ensures !ValidateNameLength("Al")
    ensures ValidateNameLength("ééé")
    ensures !ValidateNameLength("éééééé")
  {
  }
}

=== FILE: wrappers.dfy ===
/** A value that may be missing: a lookup that finds nothing, a JSON field the body leaves out. */
module Wrappers {

  datatype Option<T> = None | Some(value: T) {

    /** What is carried, or `fallback` when nothing is. */
    function GetOr(fallback: T): T {
      if Some? then value else fallback
    }
  }
}
